=== FILE: README.md ===
# missy messaging reader, modelled in Dafny

This project models the message-consumption core of the `messaging` package
(messaging/reader.go). A `missyReader` is bound to one topic and consumer
group. `Read` registers a callback and starts a background loop. The loop
fetches one message at a time and hands it to the callback. Then it does
exactly one of these:

- commits the message when the callback succeeds;
- republishes its key and value to the same topic with the retry counter
  one higher, when the callback fails below the retry ceiling;
- publishes them to the dead-letter topic `<topic>.dlq`, when the callback
  fails at or above the ceiling.

The loop ends at the first fetch error.

The loop is modelled as a pure fold, `Loop.Consume`. It runs over a finite
script of loop turns, `Loop.Event`. A turn is either a fetch error, or a
fetched message together with the callback's answer and the commit's answer.
The fold produces the trace of calls the loop makes, as `Loop.Action` values:
`Invoke` (the callback), `Commit`, `Retry(key, value, counter)` and
`Dlq(key, value)`. It also reports whether the loop stopped. A script that
runs out without a fetch error leaves the loop waiting in a fetch. The loop
works against the abstract broker-reader interface, so a fetched message may
carry any retry counter.

Modules:

- `GoTypes`: Go's 64-bit `int`/`int64` and `byte`.
- `Results`: `Option` and Go's nil/non-nil `error` as `Outcome`.
- `Messages`: `Message`, the broker library's record, and the adapter's two
  field-copying conversions (`readBroker.FetchMessage` and
  `readBroker.CommitMessages`).
- `Strconv`: Go's `strconv.Atoi` on 64-bit `int`, with `Itoa` as its partner.
  The constructor uses `Atoi` to obtain its retry ceiling.
- `Loop`: the per-message decision, the loop step and the fold, and the
  properties of the trace.
- `Readers`: the reader record, `NewReader` wiring, the `Read` guard, and the
  guard combined with the loop.

Go's `int` and `int64` are modelled as a 64-bit `int64` newtype. The counter
increment `RetryCounter + 1` is proved not to overflow: it only happens while
the counter is below a ceiling that is itself an `int64`.

Two behaviours of the code are modelled as written:

- **The ceiling is always 5.** The constructor applies `strconv.Atoi` to the
  literal text `"number.of.retries"`, not to a configured value. That text
  never parses, so the fallback of 5 is always taken (`Readers.KeyNameGivesDefault`,
  `Readers.NewReader`). The debug message on that fallback ("number.of.retries
  was not set") shows that a configured value was meant to be parsed; the
  model keeps the code's behaviour, and `Readers.NumericSettingIsCeiling`
  states what a numeric setting would have given.
- **The concrete adapter drops the counter.** `readBroker.FetchMessage` never
  fills `RetryCounter`, so messages fetched through it always carry 0.
  Under the ceiling of 5 such a message can never reach the dead-letter topic
  (`Readers.AdapterFetchesNeverDivert`).

The `Read` guard is a plain read of the callback slot followed by a write
to it. The model is sequential and claims no atomicity.

## Model

| member | source | states |
|---|---|---|
| Messages.FetchMessage | messaging/reader.go:49-57 | a library fetch error yields Go's zero `Message` and that same error; a fetched record yields a message with the record's topic, key, value, time, partition and offset and a retry counter of 0 |
| Messages.MessageRoundTrip | messaging/reader.go:56 | a message survives conversion to a broker record and back exactly when its retry counter is 0, because the counter is the one field the adapter does not carry |
| Messages.RecordRoundTrip | messaging/reader.go:76 | the six copied fields of a broker record (topic, key, value, time, partition, offset) survive conversion to a `Message` and back unchanged |
| Messages.CommitRecords | messaging/reader.go:71-81 | the slice handed to the library has the same length and order as the messages committed, and element i copies the six fields of message i |
| Strconv.Atoi | messaging/reader.go:101 | `Atoi` accepts only an optional leading sign followed by at least one decimal digit; every other string, including the empty string and a bare sign, is an error |
| Strconv.AtoiRejectsBareSign | messaging/reader.go:101-102 | the empty string, "+" and "-" make `Atoi` return an error |
| Strconv.AtoiItoa | messaging/reader.go:101 | parsing the decimal text of any 64-bit int gives back that int, so `Atoi` accepts every number it could be configured with |
| Strconv.AtoiRejectsNonDigit | messaging/reader.go:101-102 | a string with any character that is neither a digit nor a leading sign makes `Atoi` return an error |
| Readers.RetryCeiling | messaging/reader.go:101-105 | the ceiling is the parsed value when the text parses, and the default 5 when it does not |
| Readers.NumericSettingIsCeiling | messaging/reader.go:101-105 | if the text were a number, that number would become the ceiling |
| Readers.KeyNameGivesDefault | messaging/reader.go:101-105 | the key name that is actually parsed never parses, so the ceiling is always 5 |
| Readers.NewReader | messaging/reader.go:90-116 | a new reader is bound to the given brokers, group and topic and commits explicitly; its retry writer targets `topic` and its dead-letter writer targets `topic + ".dlq"`; its ceiling is 5 and it has no callback registered |
| Readers.Read | messaging/reader.go:119-160 | with a callback already registered, `Read` fails with the error "this reader is currently reading from underlying broker" and leaves the reader unchanged; otherwise it registers the given callback, changes nothing else and returns nil |
| Readers.SecondReadFails | messaging/reader.go:121-126 | after any `Read`, a second `Read` fails and leaves the first registered callback in place |
| Readers.AtMostOneLoop | messaging/reader.go:119-129 | over any sequence of `Read` calls at most one is accepted, so at most one loop starts; that happens exactly when the reader was idle, and the first callback stays registered |
| Readers.ReadAndConsume | messaging/reader.go:119-160 | a rejected `Read` starts no loop and so makes no call; an accepted one runs a loop that stops exactly when the broker reports a fetch error and, for each message fetched before it in order, calls the callback and then disposes of the message under this reader's own retry ceiling |
| Readers.NewReaderLoopUsesFive | messaging/reader.go:101-147 | `Read` on a fresh reader is accepted, and the loop it starts disposes of every processed message under the ceiling of 5 |
| Readers.Destination | messaging/reader.go:112-147 | only retries and dead-letter writes publish: a retry goes to the topic of the reader's retry writer, a dead-letter write to the topic of its dead-letter writer, and other calls have no topic |
| Readers.NewReaderRouting | messaging/reader.go:107-147 | for a reader built by `NewReader`, a failed message with counter below 5 is republished to its own topic with counter plus one, and one with counter 5 or more goes to `topic + ".dlq"` |
| Readers.AdapterFetchesNeverDivert | messaging/reader.go:56-147 | a failing message fetched through the concrete adapter is always republished with counter 1 and never dead-lettered |
| Loop.Dispose | messaging/reader.go:139-156 | after the callback answers, exactly one disposition follows: a commit of that same message if and only if the callback succeeded; a same-topic retry with unchanged key and value and counter plus one if and only if it failed below the ceiling; a dead-letter write of the unchanged key and value if and only if it failed at or above the ceiling |
| Loop.CeilingBoundary | messaging/reader.go:142-147 | a failure at counter ceiling-1 is retried with counter equal to the ceiling, and a failure at the ceiling goes to the dead-letter topic |
| Loop.Step | messaging/reader.go:130-157 | a fetch error stops the loop with no call; a fetched message is handed to the callback once and then gets its one disposition; the commit's answer plays no part |
| Loop.Consume | messaging/reader.go:129-158 | the loop stops if and only if the broker reports a fetch error, and it makes two calls for every message it processes |
| Loop.ConsumeShape | messaging/reader.go:129-158 | for the messages fetched before the first fetch error, in order, the trace holds exactly the callback invocation followed by that message's disposition, and nothing else |
| Loop.FetchErrorEndsLoop | messaging/reader.go:133-136 | after a fetch error nothing further is fetched, called, committed or published, whatever the broker would have delivered next |
| Loop.ConsumeAppend | messaging/reader.go:130-157 | a loop that has not stopped continues a longer script exactly where it left off, because the turns run sequentially and carry no state |
| Loop.CommitErrorsChangeNothing | messaging/reader.go:153-156 | commit errors are only logged: scripts that differ only in how commits answer yield the same calls and the same stopping point, with no extra retry or dead-letter write |
| Loop.OneOutcomePerMessage | messaging/reader.go:139-156 | over the processed messages, the callback runs once per message, commits equal the successful callbacks, and retries plus dead-letter writes equal the failed ones |
| Loop.RetryChainDiverts | messaging/reader.go:141-147 | a payload that keeps failing, redelivered with counters 0, 1, ..., ceiling, gets ceiling+1 callback attempts; each of the first ceiling attempts republishes it with the counter the next delivery carries, and the last sends it unchanged to the dead-letter topic |

## Left out

- The goroutine: the loop is a fold over a finite script, not a concurrent
  task. The `Read` guard is modelled sequentially and is not claimed atomic.
- `context.Context`, and the broker library's configuration sizes
  (`MinBytes`, `MaxBytes`): foreign library details with no effect on the
  decisions modelled.
- `readBroker.ReadMessage`: the auto-commit path, which nothing in the
  package calls.
- `Close` on the reader and on the adapter: pure pass-through to the broker
  library. The model does not reset the registered callback on `Close`,
  and neither does the code.
- Logging: no behavioural effect.
- The writer's internals: writer.go is not part of this model. `Write` and
  `WriteWithRetryCounter` appear only as recorded `Dlq` and `Retry` calls,
  and their errors are discarded as in the code. `NewWriter` is modelled as
  the broker list and the topic it is given. So the counter a dead-letter
  record carries is not modelled.
- Messages.CommitRecords: returns the records handed to the broker library
  but not the library's error, which `CommitMessages` passes back verbatim.
- Strconv.Atoi: does not distinguish Go's syntax error from its range error,
  because the one caller only tests whether there was an error.
- The broker library's record is modelled with only the six fields the
  adapter copies; its other fields, which the adapter drops, are not
  modelled.
- `Time` is an uninterpreted value that is only copied. The difference
  between a nil and an empty byte slice is not modelled.
- Callback panics, including the panic of a nil callback: `Read(nil)` is
  accepted, because the stored pointer to the callback is never nil, and
  the loop then calls the nil function. A panic in the loop is not
  recovered and ends the whole process. The model's callback only ever
  succeeds or returns an error.
- Turns that never finish: a callback, `CommitMessages`, `Write` or
  `WriteWithRetryCounter` that never returns stalls the loop. Only completed
  turns are modelled; a script that runs out stands for a loop waiting in
  its next fetch, not for one stuck inside a turn.
- Publish errors: the loop ignores what `Write` and `WriteWithRetryCounter`
  return, so the model gives them no outcome.

=== FILE: consume.dfy ===
/** The consume loop that `missyReader.Read` starts (messaging/reader.go),
    as a pure fold over a finite script of what the broker and the callback
    do, producing the trace of calls the loop makes on its collaborators. */
module Loop {
  import opened Results
  import opened GoTypes
  import opened Messages

  /** One turn of the loop as seen from outside: either the fetch failed,
      or it returned `msg`, the callback answered `callback`, and a commit,
      if one is made, answers `commit`. */
  datatype Event =
    | Delivered(msg: Message, callback: Outcome, commit: Outcome)
    | FetchFailed(error: Error)

  /** A call the loop makes: the callback, `CommitMessages` on the broker
      reader, `WriteWithRetryCounter` on the same-topic writer, or `Write`
      on the dead-letter writer. */
  datatype Action =
    | Invoke(msg: Message)
    | Commit(msg: Message)
    | Retry(key: Bytes, value: Bytes, counter: int64)
    | Dlq(key: Bytes, value: Bytes)

  /** What happened to one message after its callback returned. */
  predicate IsDisposition(a: Action) {
    a.Commit? || a.Retry? || a.Dlq?
  }

  /** The single call made for `m` once the callback has answered: commit on
      success; on failure a same-topic republish with the counter one higher
      while the counter is below `ceiling`, otherwise a dead-letter publish.
      Key and value travel unchanged; the counter cannot overflow, because
      it is only incremented while below a ceiling that is itself an int. */
  function Dispose(ceiling: int64, m: Message, callback: Outcome): (a: Action)
    ensures IsDisposition(a)
    ensures a.Commit? <==> callback.Ok?
    ensures a.Commit? ==> a.msg == m
    ensures a.Retry? <==> callback.Failed? && m.retryCounter < ceiling
    ensures a.Retry? ==> a.key == m.key && a.value == m.value && a.counter as int == m.retryCounter as int + 1
    ensures a.Dlq? <==> callback.Failed? && m.retryCounter >= ceiling
    ensures a.Dlq? ==> a.key == m.key && a.value == m.value
  {
    match callback
    case Ok => Commit(m)
    case Failed(_) =>
      if m.retryCounter >= ceiling then Dlq(m.key, m.value)
      else Retry(m.key, m.value, m.retryCounter + 1)
  }

  /** The boundary of the ceiling: one below it still retries, reaching the
      ceiling itself; at the ceiling the message goes to the dead-letter topic. */
  lemma CeilingBoundary(ceiling: int64, m: Message, e: Error)
    requires m.retryCounter as int == ceiling as int - 1 || m.retryCounter == ceiling
    ensures m.retryCounter < ceiling ==> Dispose(ceiling, m, Failed(e)) == Retry(m.key, m.value, ceiling)
    ensures m.retryCounter == ceiling ==> Dispose(ceiling, m, Failed(e)) == Dlq(m.key, m.value)
  {
  }

  /** The outcome of one loop turn. */
  datatype Verdict = Stop | Continue(actions: seq<Action>)

  /** One loop turn: a fetch error ends the loop with no further call;
      a fetched message is handed to the callback once and then disposed of
      once. A commit error only gets logged, so it changes nothing here. */
  function Step(ceiling: int64, e: Event): (v: Verdict)
    ensures v.Stop? <==> e.FetchFailed?
    ensures v.Continue? ==> |v.actions| == 2 && v.actions[0] == Invoke(e.msg)
    ensures v.Continue? ==> v.actions[1] == Dispose(ceiling, e.msg, e.callback)
  {
    match e
    case FetchFailed(_) => Stop
    case Delivered(m, callback, _) => Continue([Invoke(m), Dispose(ceiling, m, callback)])
  }

  /** The calls made so far, and whether the loop has ended. When the script
      runs out without a fetch error the loop is still waiting in a fetch. */
  datatype Run = Run(trace: seq<Action>, stopped: bool)

  /** The script contains a fetch error. */
  predicate HasFetchError(script: seq<Event>) {
    exists i :: 0 <= i < |script| && script[i].FetchFailed?
  }

  /** The loop folded over `script`. */
  function Consume(ceiling: int64, script: seq<Event>): (r: Run)
    ensures r.stopped <==> HasFetchError(script)
    ensures |r.trace| % 2 == 0 && |r.trace| <= 2 * |script|
    ensures !r.stopped ==> |r.trace| == 2 * |script|
    decreases |script|
  {
    if script == [] then Run([], false)
    else
      match Step(ceiling, script[0])
      case Stop => Run([], true)
      case Continue(actions) =>
        var rest := Consume(ceiling, script[1..]);
        assert HasFetchError(script[1..]) ==> HasFetchError(script);
        assert HasFetchError(script) ==> HasFetchError(script[1..]);
        Run(actions + rest.trace, rest.stopped)
  }

  /** The messages the loop gets to: the events before the first fetch error. */
  function Processed(script: seq<Event>): (p: seq<Event>)
    ensures |p| <= |script| && p == script[..|p|]
    ensures forall i :: 0 <= i < |p| ==> p[i].Delivered?
    ensures |p| < |script| ==> script[|p|].FetchFailed?
  {
    if script == [] || script[0].FetchFailed? then []
    else [script[0]] + Processed(script[1..])
  }

  /** The whole trace, call by call: the events before the first fetch error
      each yield exactly the callback invocation followed by that message's
      disposition, in fetch order, and nothing else is called. */
  lemma {:induction false} ConsumeShape(ceiling: int64, script: seq<Event>)
    ensures var r := Consume(ceiling, script); var p := Processed(script);
      && |r.trace| == 2 * |p|
      && (forall i :: 0 <= i < |p| ==> r.trace[2 * i] == Invoke(p[i].msg))
      && (forall i :: 0 <= i < |p| ==> r.trace[2 * i + 1] == Dispose(ceiling, p[i].msg, p[i].callback))
    decreases |script|
  {
    if script != [] && script[0].Delivered? {
      ConsumeShape(ceiling, script[1..]);
      var r := Consume(ceiling, script);
      var p := Processed(script);
      var rest := Consume(ceiling, script[1..]);
      assert r.trace == Step(ceiling, script[0]).actions + rest.trace;
      assert p == [script[0]] + Processed(script[1..]);
      forall i | 1 <= i < |p|
        ensures r.trace[2 * i] == Invoke(p[i].msg)
        ensures r.trace[2 * i + 1] == Dispose(ceiling, p[i].msg, p[i].callback)
      {
        assert r.trace[2 * i] == rest.trace[2 * (i - 1)];
        assert r.trace[2 * i + 1] == rest.trace[2 * (i - 1) + 1];
      }
    }
  }

  /** A fetch error ends the loop for good: whatever the broker would have
      delivered afterwards is never fetched, handed to the callback,
      committed or republished. */
  lemma {:induction false} FetchErrorEndsLoop(ceiling: int64, before: seq<Event>, e: Error, after: seq<Event>)
    ensures Consume(ceiling, before + [FetchFailed(e)] + after) == Consume(ceiling, before + [FetchFailed(e)])
    ensures Consume(ceiling, before + [FetchFailed(e)]).stopped
    decreases |before|
  {
    if before == [] {
      assert (before + [FetchFailed(e)] + after)[0] == FetchFailed(e);
    } else {
      FetchErrorEndsLoop(ceiling, before[1..], e, after);
      assert (before + [FetchFailed(e)] + after)[1..] == before[1..] + [FetchFailed(e)] + after;
      assert (before + [FetchFailed(e)])[1..] == before[1..] + [FetchFailed(e)];
    }
  }

  /** The loop is sequential: running a longer script continues exactly
      where a shorter one that did not stop left off. */
  lemma {:induction false} ConsumeAppend(ceiling: int64, s: seq<Event>, t: seq<Event>)
    requires !Consume(ceiling, s).stopped
    ensures Consume(ceiling, s + t) == Run(Consume(ceiling, s).trace + Consume(ceiling, t).trace, Consume(ceiling, t).stopped)
    decreases |s|
  {
    if s != [] {
      assert (s + t)[0] == s[0];
      assert (s + t)[1..] == s[1..] + t;
      ConsumeAppend(ceiling, s[1..], t);
    } else {
      assert s + t == t;
    }
  }

  /** Two scripts that differ at most in how commits answer. */
  predicate SameButCommits(s: seq<Event>, t: seq<Event>) {
    && |s| == |t|
    && forall i :: 0 <= i < |s| ==>
         if s[i].Delivered?
         then t[i].Delivered? && t[i].msg == s[i].msg && t[i].callback == s[i].callback
         else t[i] == s[i]
  }

  /** A failed commit is only logged: the loop makes the same calls, retries
      and dead-letters nothing more, and keeps fetching, whatever the commits
      answer. */
  lemma {:induction false} CommitErrorsChangeNothing(ceiling: int64, s: seq<Event>, t: seq<Event>)
    requires SameButCommits(s, t)
    ensures Consume(ceiling, s) == Consume(ceiling, t)
    decreases |s|
  {
    if s != [] {
      assert SameButCommits(s[1..], t[1..]) by {
        forall i | 0 <= i < |s[1..]|
          ensures if s[1..][i].Delivered?
                  then t[1..][i].Delivered? && t[1..][i].msg == s[1..][i].msg && t[1..][i].callback == s[1..][i].callback
                  else t[1..][i] == s[1..][i]
        {
          assert s[1..][i] == s[i + 1] && t[1..][i] == t[i + 1];
        }
      }
      CommitErrorsChangeNothing(ceiling, s[1..], t[1..]);
      assert Step(ceiling, s[0]) == Step(ceiling, t[0]);
    }
  }

  /** How many actions of `trace` satisfy `p`. */
  function Count(trace: seq<Action>, p: Action -> bool): nat {
    if trace == [] then 0
    else (if p(trace[0]) then 1 else 0) + Count(trace[1..], p)
  }

  /** How many events of a script satisfy `p`. */
  function CountEvents(script: seq<Event>, p: Event -> bool): nat {
    if script == [] then 0
    else (if p(script[0]) then 1 else 0) + CountEvents(script[1..], p)
  }

  /** Per message, exactly one outcome: over the processed part of any
      script, callbacks run once per message, commits happen exactly for
      the messages whose callback succeeded, and retries plus dead-letter
      publishes exactly for those whose callback failed. */
  lemma {:induction false} OneOutcomePerMessage(ceiling: int64, script: seq<Event>)
    ensures var r := Consume(ceiling, script); var p := Processed(script);
      && Count(r.trace, (a: Action) => a.Invoke?) == |p|
      && Count(r.trace, (a: Action) => a.Commit?) == CountEvents(p, (e: Event) => e.Delivered? && e.callback.Ok?)
      && Count(r.trace, (a: Action) => a.Retry? || a.Dlq?) == CountEvents(p, (e: Event) => e.Delivered? && e.callback.Failed?)
    decreases |script|
  {
    if script != [] && script[0].Delivered? {
      OneOutcomePerMessage(ceiling, script[1..]);
      var r := Consume(ceiling, script);
      var rest := Consume(ceiling, script[1..]);
      var m := script[0].msg;
      var d := Dispose(ceiling, m, script[0].callback);
      assert r.trace == [Invoke(m), d] + rest.trace;
      assert r.trace[1..] == [d] + rest.trace;
      assert r.trace[1..][1..] == rest.trace;
      assert Processed(script)[1..] == Processed(script[1..]);
    }
  }

  /** A retry chain of one payload: its `i`-th delivery carries retry counter
      `i`, and every callback attempt on it fails. */
  predicate FailingChain(script: seq<Event>, key: Bytes, value: Bytes) {
    forall i :: 0 <= i < |script| ==>
      && script[i].Delivered?
      && script[i].callback.Failed?
      && script[i].msg.key == key
      && script[i].msg.value == value
      && script[i].msg.retryCounter as int == i
  }

  /** A payload that keeps failing gets `ceiling + 1` callback attempts: each
      of the first `ceiling` ones republishes it with exactly the counter the
      next delivery carries, and the last one diverts it, unchanged, to the
      dead-letter topic. */
  lemma RetryChainDiverts(ceiling: int64, script: seq<Event>, key: Bytes, value: Bytes)
    requires 0 <= ceiling
    requires |script| == ceiling as int + 1
    requires FailingChain(script, key, value)
    ensures var r := Consume(ceiling, script);
      && |r.trace| == 2 * (ceiling as int + 1)
      && !r.stopped
      && (forall i :: 0 <= i <= ceiling as int ==> r.trace[2 * i] == Invoke(script[i].msg))
      && (forall i :: 0 <= i < ceiling as int ==> r.trace[2 * i + 1] == Retry(key, value, script[i + 1].msg.retryCounter))
      && r.trace[2 * ceiling as int + 1] == Dlq(key, value)
  {
    ConsumeShape(ceiling, script);
    var r := Consume(ceiling, script);
    var p := Processed(script);
    assert !HasFetchError(script);
    assert |p| == |script|;
    assert p == script;
    forall i | 0 <= i < ceiling as int
      ensures r.trace[2 * i + 1] == Retry(key, value, script[i + 1].msg.retryCounter)
    {
      assert p[i] == script[i];
    }
    assert p[ceiling] == script[ceiling];
  }
}

=== FILE: gotypes.dfy ===
/** Go's fixed-width base types, on a 64-bit platform. */
module GoTypes {

  /** Go's `int` on a 64-bit platform, and `int64`. */
  const MinInt64: int := -0x8000_0000_0000_0000
  const MaxInt64: int := 0x7fff_ffff_ffff_ffff
  newtype int64 = x: int | MinInt64 <= x <= MaxInt64

  newtype byte = x: int | 0 <= x < 0x100
  type Bytes = seq<byte>
}

=== FILE: messages.dfy ===
/** The `Message` value shared by the messaging package and the broker
    library's record it is converted to and from (messaging/reader.go). */
module Messages {
  import opened Results
  import opened GoTypes

  /** A timestamp. The reader only ever copies it, so it stays uninterpreted. */
  datatype Time = Time(wall: int)
  const ZeroTime := Time(0)

  /** The package's own message. `retryCounter` counts earlier processing
      attempts of the same key/value payload. */
  datatype Message = Message(
    topic: string,
    key: Bytes,
    value: Bytes,
    time: Time,
    partition: int64,
    offset: int64,
    retryCounter: int64)

  /** Go's zero value `Message{}`, returned beside a fetch error. */
  const ZeroMessage := Message("", [], [], ZeroTime, 0, 0, 0)

  /** The broker library's record, restricted to the fields the adapter copies. */
  datatype Record = Record(
    topic: string,
    key: Bytes,
    value: Bytes,
    time: Time,
    partition: int64,
    offset: int64)

  /** The six fields the adapter copies agree between `m` and `rec`. */
  predicate SameFields(m: Message, rec: Record) {
    && m.topic == rec.topic
    && m.key == rec.key
    && m.value == rec.value
    && m.time == rec.time
    && m.partition == rec.partition
    && m.offset == rec.offset
  }

  /** The struct literal built from a fetched record: `RetryCounter` is not
      among the copied fields, so it keeps Go's zero value. */
  function FromRecord(rec: Record): (m: Message)
    ensures SameFields(m, rec)
    ensures m.retryCounter == 0
  {
    Message(rec.topic, rec.key, rec.value, rec.time, rec.partition, rec.offset, 0)
  }

  /** The record literal built for a commit. */
  function ToRecord(m: Message): (rec: Record)
    ensures SameFields(m, rec)
  {
    Record(m.topic, m.key, m.value, m.time, m.partition, m.offset)
  }

  /** A record survives the trip through `Message` unchanged. */
  lemma RecordRoundTrip(rec: Record)
    ensures ToRecord(FromRecord(rec)) == rec
  {
  }

  /** A message survives the trip through the broker record exactly when it
      carries no retry count: the counter is the one field the record lacks. */
  lemma MessageRoundTrip(m: Message)
    ensures FromRecord(ToRecord(m)) == m <==> m.retryCounter == 0
  {
    if m.retryCounter != 0 {
      assert FromRecord(ToRecord(m)).retryCounter != m.retryCounter;
    }
  }

  /** What the broker library's own fetch call handed back. */
  datatype LibraryFetch = Fetched(rec: Record) | LibraryError(error: Error)

  /** Go's `(Message, error)` result pair. */
  datatype FetchResult = FetchResult(msg: Message, err: Option<Error>)

  /** `readBroker.FetchMessage`: on a library error the zero message and the
      same error; otherwise the record's six fields with a zero retry count. */
  function FetchMessage(reply: LibraryFetch): (r: FetchResult)
    ensures reply.LibraryError? <==> r.err.Some?
    ensures reply.LibraryError? ==> r.msg == ZeroMessage && r.err == Some(reply.error)
    ensures reply.Fetched? ==> SameFields(r.msg, reply.rec) && r.msg.retryCounter == 0
  {
    match reply
    case LibraryError(e) => FetchResult(ZeroMessage, Some(e))
    case Fetched(rec) => FetchResult(FromRecord(rec), None)
  }

  /** The record slice `readBroker.CommitMessages` hands to the broker
      library: same length and order, each element copying its message's
      six fields. The library's error is passed back verbatim, so it is not
      part of this model. */
  method CommitRecords(msgs: seq<Message>) returns (recs: seq<Record>)
    ensures |recs| == |msgs|
    ensures forall i :: 0 <= i < |msgs| ==> SameFields(msgs[i], recs[i])
  {
    recs := [];
    var i := 0;
    while i < |msgs|
      invariant 0 <= i <= |msgs|
      invariant |recs| == i
      invariant forall j :: 0 <= j < i ==> SameFields(msgs[j], recs[j])
    {
      recs := recs + [ToRecord(msgs[i])];
      i := i + 1;
    }
  }
}

=== FILE: reader.dfy ===
/** `missyReader`: its construction by `NewReader` and the single-flight
    guard of `Read`, tied to the consume loop it starts
    (messaging/reader.go). */
module Readers {
  import opened Results
  import opened GoTypes
  import opened Messages
  import opened Strconv
  import opened Loop

  /** A publisher bound to one topic; what `NewWriter` is given. */
  datatype Writer = Writer(brokers: seq<string>, topic: string)

  /** The broker reader's configuration as far as this package chooses it.
      A commit interval of 0 asks the library to commit synchronously, only
      when told to. */
  datatype BrokerConfig = BrokerConfig(brokers: seq<string>, groupID: string, topic: string, commitInterval: int)

  /** The identity of a registered callback function. */
  type Callback = nat

  datatype Reader = Reader(
    brokers: seq<string>,
    groupID: string,
    topic: string,
    brokerReader: BrokerConfig,
    readFunc: Option<Callback>,
    writer: Writer,
    dlqWriter: Writer,
    numOfRetries: int64)

  /** The string the constructor hands to `Atoi`: the configuration key's
      name itself rather than a value looked up under it. */
  const RetriesKey := "number.of.retries"
  const DefaultRetries: int64 := 5
  const DlqSuffix := ".dlq"

  /** The retry ceiling obtained from a setting: its value when it parses as
      an int, the default of 5 when it does not. */
  function RetryCeiling(setting: string): (n: int64)
    ensures Atoi(setting).Some? ==> n == Atoi(setting).value
    ensures Atoi(setting).None? ==> n == DefaultRetries
  {
    match Atoi(setting)
    case Some(v) => v
    case None => DefaultRetries
  }

  /** A numeric setting would be taken at its value... */
  lemma NumericSettingIsCeiling(n: int64)
    ensures RetryCeiling(Itoa(n)) == n
  {
    AtoiItoa(n);
  }

  /** ...but the text that is actually parsed is the key's name, which is
      not a number, so the ceiling is always the default. */
  lemma KeyNameGivesDefault()
    ensures RetryCeiling(RetriesKey) == DefaultRetries
  {
    AtoiRejectsNonDigit(RetriesKey, 0);
  }

  /** `NewReader`: a reader on `topic` for the group, committing explicitly,
      republishing retries to `topic` itself and dead letters to
      `topic + ".dlq"`, with a retry ceiling of 5, and not yet reading. */
  function NewReader(brokers: seq<string>, groupID: string, topic: string): (r: Reader)
    ensures r.brokers == brokers && r.groupID == groupID && r.topic == topic
    ensures r.brokerReader == BrokerConfig(brokers, groupID, topic, 0)
    ensures r.writer == Writer(brokers, topic)
    ensures r.dlqWriter == Writer(brokers, topic + ".dlq")
    ensures r.numOfRetries == 5
    ensures r.readFunc.None?
  {
    KeyNameGivesDefault();
    Reader(
      brokers, groupID, topic,
      BrokerConfig(brokers, groupID, topic, 0),
      None,
      Writer(brokers, topic),
      Writer(brokers, topic + DlqSuffix),
      RetryCeiling(RetriesKey))
  }

  /** Go's `error` result of `Read` beside the reader afterwards. */
  datatype ReadResult = ReadResult(reader: Reader, err: Option<Error>)

  const AlreadyReading := "this reader is currently reading from underlying broker"

  /** The guard of `Read`: with a callback already registered the call fails
      and changes nothing; otherwise it registers `cb`, changes nothing
      else, and succeeds. The check and the registration are two separate
      steps in the source; this sequential model claims no atomicity. */
  function Read(r: Reader, cb: Callback): (res: ReadResult)
    ensures res.err.Some? <==> r.readFunc.Some?
    ensures r.readFunc.Some? ==> res.reader == r && res.err == Some(AlreadyReading)
    ensures r.readFunc.None? ==> res.reader == r.(readFunc := Some(cb))
    ensures res.reader.readFunc.Some?
  {
    if r.readFunc.Some? then ReadResult(r, Some(AlreadyReading))
    else ReadResult(r.(readFunc := Some(cb)), None)
  }

  /** Once `Read` has been called, every later `Read` fails and the first
      registered callback stays in place. */
  lemma SecondReadFails(r: Reader, first: Callback, second: Callback)
    ensures var once := Read(r, first).reader;
      && Read(once, second).err.Some?
      && Read(once, second).reader == once
      && (r.readFunc.None? ==> once.readFunc == Some(first))
  {
  }

  /** A sequence of `Read` calls on one reader: the reader afterwards and how
      many of the calls were accepted (each accepted call starts a loop). */
  function ReadEach(r: Reader, cbs: seq<Callback>): (res: (Reader, nat))
    decreases |cbs|
  {
    if cbs == [] then (r, 0)
    else
      var first := Read(r, cbs[0]);
      var rest := ReadEach(first.reader, cbs[1..]);
      (rest.0, rest.1 + (if first.err.None? then 1 else 0))
  }

  /** However many times `Read` is called, at most one loop is started: the
      first call on an idle reader, whose callback is the one that stays
      registered; on a reader already reading, none. */
  lemma {:induction false} AtMostOneLoop(r: Reader, cbs: seq<Callback>)
    ensures ReadEach(r, cbs).1 <= 1
    ensures ReadEach(r, cbs).1 == 1 <==> r.readFunc.None? && |cbs| > 0
    ensures r.readFunc.None? && |cbs| > 0 ==> ReadEach(r, cbs).0 == r.(readFunc := Some(cbs[0]))
    ensures r.readFunc.Some? ==> ReadEach(r, cbs).0 == r
    decreases |cbs|
  {
    if cbs != [] {
      var first := Read(r, cbs[0]);
      AtMostOneLoop(first.reader, cbs[1..]);
    }
  }

  /** `Read` followed by the background loop it starts, run over `script`;
      a rejected call starts no loop, so it makes no call at all. An accepted
      call runs the loop under this reader's own retry ceiling: every message
      fetched before the first fetch error is handed to the callback and then
      disposed of according to `r.numOfRetries`, in fetch order. */
  function ReadAndConsume(r: Reader, cb: Callback, script: seq<Event>): (res: (ReadResult, Run))
    ensures res.0 == Read(r, cb)
    ensures r.readFunc.Some? ==> res.1 == Run([], false)
    ensures r.readFunc.None? ==> (res.1.stopped <==> HasFetchError(script))
    ensures r.readFunc.None? ==>
      var p := Processed(script);
      && |res.1.trace| == 2 * |p|
      && (forall i :: 0 <= i < |p| ==> res.1.trace[2 * i] == Invoke(p[i].msg))
      && (forall i :: 0 <= i < |p| ==> res.1.trace[2 * i + 1] == Dispose(r.numOfRetries, p[i].msg, p[i].callback))
  {
    var accepted := Read(r, cb);
    if accepted.err.Some? then (accepted, Run([], false))
    else
      ConsumeShape(r.numOfRetries, script);
      (accepted, Consume(r.numOfRetries, script))
  }

  /** The loop started on a fresh reader disposes of every processed message
      under the ceiling of 5 that `NewReader` fixes. */
  lemma NewReaderLoopUsesFive(brokers: seq<string>, groupID: string, topic: string, cb: Callback, script: seq<Event>)
    ensures var res := ReadAndConsume(NewReader(brokers, groupID, topic), cb, script);
      var p := Processed(script);
      && res.0.err.None?
      && |res.1.trace| == 2 * |p|
      && forall i :: 0 <= i < |p| ==> res.1.trace[2 * i + 1] == Dispose(5, p[i].msg, p[i].callback)
  {
  }

  /** The topic an action publishes to, if it publishes. */
  function Destination(r: Reader, a: Action): (t: Option<string>)
    ensures t.Some? <==> a.Retry? || a.Dlq?
    ensures a.Retry? ==> t == Some(r.writer.topic)
    ensures a.Dlq? ==> t == Some(r.dlqWriter.topic)
  {
    match a
    case Retry(_, _, _) => Some(r.writer.topic)
    case Dlq(_, _) => Some(r.dlqWriter.topic)
    case _ => None
  }

  /** For a reader built by `NewReader`, a failed message with a counter
      below 5 is republished to its own topic with the counter one higher,
      and one with a counter of 5 or more goes to `topic + ".dlq"`. */
  lemma NewReaderRouting(brokers: seq<string>, groupID: string, topic: string, m: Message, e: Error)
    ensures var r := NewReader(brokers, groupID, topic);
      var a := Dispose(r.numOfRetries, m, Failed(e));
      && (m.retryCounter < 5 ==> a == Retry(m.key, m.value, m.retryCounter + 1) && Destination(r, a) == Some(topic))
      && (m.retryCounter >= 5 ==> a == Dlq(m.key, m.value) && Destination(r, a) == Some(topic + ".dlq"))
  {
  }

  /** Messages fetched through the concrete broker adapter always carry a
      retry counter of 0, so with the ceiling of 5 a failing one is always
      republished with counter 1 and never reaches the dead-letter topic. */
  lemma AdapterFetchesNeverDivert(brokers: seq<string>, groupID: string, topic: string, rec: Record, e: Error)
    ensures var r := NewReader(brokers, groupID, topic);
      var m := FetchMessage(Fetched(rec)).msg;
      Dispose(r.numOfRetries, m, Failed(e)) == Retry(rec.key, rec.value, 1)
  {
  }
}

=== FILE: results.dfy ===
/** Small failure-carrying datatypes shared by the reader model. */
module Results {

  /** Go's textual `error` values; only their presence is ever tested. */
  type Error = string

  /** An optional value: Go's nil-able pointer or `(value, err)` pair
      whose value is meaningless when `err != nil`. */
  datatype Option<+T> = None | Some(value: T)

  /** The `error` a Go call returns: nil (`Ok`) or non-nil (`Failed`). */
  datatype Outcome = Ok | Failed(error: Error)
}

=== FILE: strconv.dfy ===
/** Go's `strconv.Atoi` (64-bit `int`), which the reader constructor uses
    to obtain its retry ceiling, and `strconv.Itoa` as its partner. */
module Strconv {
  import opened Results
  import opened GoTypes

  predicate IsDigit(c: char) {
    '0' <= c <= '9'
  }

  predicate IsSign(c: char) {
    c == '-' || c == '+'
  }

  predicate AllDigits(s: string) {
    forall i :: 0 <= i < |s| ==> IsDigit(s[i])
  }

  function DigitValue(c: char): (d: nat)
    requires IsDigit(c)
    ensures d < 10
  {
    c as int - '0' as int
  }

  function DigitChar(d: nat): (c: char)
    requires d < 10
    ensures IsDigit(c) && DigitValue(c) == d
  {
    ('0' as int + d) as char
  }

  /** The value of a string of decimal digits, most significant first. */
  function DecimalValue(s: string): nat
    requires AllDigits(s)
  {
    if |s| == 0 then 0
    else DecimalValue(s[..|s| - 1]) * 10 + DigitValue(s[|s| - 1])
  }

  /** `strconv.Atoi`: an optional sign followed by at least one decimal digit,
      whose value fits Go's 64-bit `int`. Every other input is an error
      (`None`); which error Go reports (syntax or range) is not modelled,
      because the one caller only tests `err != nil`. */
  function Atoi(s: string): (r: Option<int64>)
    ensures r.Some? ==> |s| > 0
    ensures r.Some? ==> forall i :: 0 <= i < |s| ==> IsDigit(s[i]) || (i == 0 && IsSign(s[i]))
    ensures r.Some? ==> exists i :: 0 <= i < |s| && IsDigit(s[i])
  {
    if |s| == 0 then None
    else
      var digits := if IsSign(s[0]) then s[1..] else s;
      if |digits| == 0 || !AllDigits(digits) then None
      else
        var v: int := if s[0] == '-' then 0 - DecimalValue(digits) as int else DecimalValue(digits);
        if MinInt64 <= v <= MaxInt64 then Some(v as int64) else None
  }

  /** The decimal digits of a natural number, without leading zeros. */
  function Digits(k: nat): (s: string)
    ensures |s| > 0
    decreases k
  {
    if k < 10 then [DigitChar(k)] else Digits(k / 10) + [DigitChar(k % 10)]
  }

  /** `strconv.Itoa`. */
  function Itoa(n: int64): (s: string)
    ensures |s| > 0
  {
    if n < 0 then "-" + Digits(-(n as int)) else Digits(n as int)
  }

  lemma {:induction false} DigitsAreDecimal(k: nat)
    ensures AllDigits(Digits(k))
    ensures DecimalValue(Digits(k)) == k
    decreases k
  {
    if k >= 10 {
      DigitsAreDecimal(k / 10);
      var s := Digits(k);
      assert s[..|s| - 1] == Digits(k / 10);
    }
  }

  /** Parsing what `Itoa` prints gives back the number. */
  lemma AtoiItoa(n: int64)
    ensures Atoi(Itoa(n)) == Some(n)
  {
    var k := if n < 0 then -(n as int) else n as int;
    DigitsAreDecimal(k);
    var s := Itoa(n);
    if n < 0 {
      assert s[1..] == Digits(k);
    } else {
      assert IsDigit(s[0]);
    }
  }

  /** A string with a character that is neither a digit nor a leading sign
      never parses; such a string makes `Atoi` fail on every input. */
  lemma AtoiRejectsNonDigit(s: string, i: nat)
    requires i < |s|
    requires !IsDigit(s[i])
    requires !(i == 0 && IsSign(s[i]))
    ensures Atoi(s).None?
  {
  }

  /** The empty string and a sign with no digits after it are errors. */
  lemma AtoiRejectsBareSign()
    ensures Atoi("").None? && Atoi("+").None? && Atoi("-").None?
  {
  }
}
